=== FILE: README.md ===
# Blog reading app: pagination, cache and lookup model

A Dafny model of the logic of an Android blog reader. The app pages through a
WordPress posts endpoint 10 posts at a time. It writes each fetched post into a
Firestore collection keyed by post id, and it shows the posts in a scrolling
list that requests the next page when the user scrolls to the bottom. Tapping a
card opens a detail screen, which finds the post by id and loads its link.

Modules: one per core source file, plus four helper modules (`Wrappers`, `Sequences`, `KotlinInt`, `PlainText`):

- `Wrappers`: `Option`, which stands for Kotlin's nullable types.
- `Sequences`: first-match search, as Kotlin's `find` does it.
- `KotlinInt`: the 32-bit `Int`. It covers `++` with wrap-around and the `toString()`/`toInt()` pair.
- `BlogData`: the `BlogResponse` record (`Post`).
- `PlainText`: Kotlin's `isWhitespace`, `trim()` and `isBlank()`, plus the one-line `toPlainText()` extension from `BlogListScreen.kt`.
- `BlogRepository`: the API fetch with its cache writes, the cache reads, and the cursor-based "load more" from the cache.
- `BlogViewModel`: the state `(posts, currentPage, isLoading, errorMessage)` and its three operations. Each operation is one atomic step.
- `BlogListScreen`: the first request, the scroll trigger, the emitted list items, the title and preview fallbacks, and the detail route.
- `Navigation`: parsing the `blogId` route argument.
- `BlogDetailScreen`: first-match lookup by id and the URL that is shown.

These external parts are parameters:

- The remote API is a function `(perPage, page) -> ApiOk(posts) | ApiError`.
- Each cache write that throws is given by the index of the first failing write.
- Each cache read is `Snapshot(documents) | QueryError`. Converting a document with `toObject` gives a `Post`, null, or an exception.
- The HTML-to-text conversion is a function `string -> string`.
- In the ViewModel, what the repository gave is `Returned(posts) | Threw(message)`.

The model follows the code as written:

- `loadMorePosts` has no guard that stops it while a load is running;
- appending fetched posts does no de-duplication.

At startup with an empty cache, the list shows only its footer, so the scroll
trigger fires alongside the first-page request, and page 2 is requested at
once. Which of the two requests completes first decides the outcome
(`StartupScrollOrders`). If page 2 completes first, page 1 replaces it and the
counter already stands at 2.

The repository turns every failure into `[]`. So a failed first-page request
empties the list and sets no error message (`FailedFirstPageClearsList`). The
list is not kept, and no error is shown. A failed load-more still moves the page
counter (`FailedLoadMoreSkipsPage`).

## Model

| member | source | states |
|---|---|---|
| KotlinInt.Inc | app/src/main/java/com/example/blogreadingapp/BlogApp/BlogViewModel.kt:62 | `currentPage++` yields the successor modulo 2^32; below `Int.MAX_VALUE` it is strictly larger |
| KotlinInt.NatToDigits | app/src/main/java/com/example/blogreadingapp/BlogApp/BlogListScreen.kt:80 | the decimal form of an id is a non-empty run of digits with no leading zero |
| KotlinInt.DigitsRoundTrip | app/src/main/java/com/example/blogreadingapp/BlogApp/Navigation.kt:17 | reading the digits `toString` writes for a natural number gives that number back |
| KotlinInt.ToString | app/src/main/java/com/example/blogreadingapp/BlogApp/BlogListScreen.kt:80 | `Int.toString()` is digits for non-negative ids and `-` followed by digits for negative ones |
| KotlinInt.ParseInt | app/src/main/java/com/example/blogreadingapp/BlogApp/Navigation.kt:17 | `toInt()` fails on the empty string and on a lone sign; an optional `+` or `-` followed by digits gives the signed value when it is within `Int` range and fails otherwise |
| KotlinInt.ToStringRoundTrip | app/src/main/java/com/example/blogreadingapp/BlogApp/Navigation.kt:17 | `toInt()` reads back every `Int` that `toString()` writes, including `Int.MIN_VALUE` |
| KotlinInt.ToStringInjective | app/src/main/java/com/example/blogreadingapp/BlogApp/BlogRepository.kt:46 | distinct ids give distinct document keys `id.toString()`, so the collection is keyed by id |
| BlogData.CountIdAppend | app/src/main/java/com/example/blogreadingapp/BlogApp/BlogViewModel.kt:64 | list concatenation adds the per-id counts: appending merges nothing and drops nothing |
| PlainText.IsWhitespace | app/src/main/java/com/example/blogreadingapp/BlogApp/BlogListScreen.kt:161 | Kotlin's `Char.isWhitespace`: space, tab, newline and carriage return are whitespace, and no visible ASCII character `!`..`~` is |
| PlainText.IsBlank | app/src/main/java/com/example/blogreadingapp/BlogApp/BlogListScreen.kt:132 | `isBlank()` holds iff nothing is left once the leading whitespace is dropped |
| PlainText.TrimStart | app/src/main/java/com/example/blogreadingapp/BlogApp/BlogListScreen.kt:161 | drops exactly the leading whitespace: a suffix, only whitespace removed, first char non-whitespace |
| PlainText.TrimEnd | app/src/main/java/com/example/blogreadingapp/BlogApp/BlogListScreen.kt:161 | drops exactly the trailing whitespace: a prefix, only whitespace removed, last char non-whitespace |
| PlainText.TrimEndsPad | app/src/main/java/com/example/blogreadingapp/BlogApp/BlogListScreen.kt:161 | trimming the start and then the end removes only whitespace around what it keeps |
| PlainText.Trim | app/src/main/java/com/example/blogreadingapp/BlogApp/BlogListScreen.kt:161 | `trim()` returns a slice of its input with no whitespace at either end, and only whitespace was removed around it |
| PlainText.TrimIdempotent | app/src/main/java/com/example/blogreadingapp/BlogApp/BlogListScreen.kt:161 | trimming a trimmed string changes nothing |
| PlainText.TrimIdentity | app/src/main/java/com/example/blogreadingapp/BlogApp/BlogListScreen.kt:161 | a string with non-whitespace ends is its own trim |
| PlainText.BlankIffTrimsToEmpty | app/src/main/java/com/example/blogreadingapp/BlogApp/BlogListScreen.kt:132 | `isBlank()` holds exactly when `trim()` leaves the empty string |
| PlainText.ToPlainText | app/src/main/java/com/example/blogreadingapp/BlogApp/BlogListScreen.kt:160-161 | `toPlainText(null)` is `""`; otherwise the result is exactly what `trim()` keeps of the converted text: no whitespace at either end, and only whitespace removed around it |
| BlogRepository.Upsert | app/src/main/java/com/example/blogreadingapp/BlogApp/BlogRepository.kt:44-49 | after the writes, the documents are the old ones plus one per written id |
| BlogRepository.LastIndexWithId | app/src/main/java/com/example/blogreadingapp/BlogApp/BlogRepository.kt:44-49 | the index found has the id and no later post does; -1 iff none does |
| BlogRepository.LastWithId | app/src/main/java/com/example/blogreadingapp/BlogApp/BlogRepository.kt:44-49 | reference for last-write-wins: absent iff no post has the id, otherwise the post at the last position with that id |
| BlogRepository.UpsertLastWriteWins | app/src/main/java/com/example/blogreadingapp/BlogApp/BlogRepository.kt:44-49 | each written id holds the last post written under it; every other id keeps its old document or stays absent |
| BlogRepository.UpsertSecondVersionWins | app/src/main/java/com/example/blogreadingapp/BlogApp/BlogRepository.kt:44-49 | two writes of one id leave one record, the second version |
| BlogRepository.GetPostsFromApi | app/src/main/java/com/example/blogreadingapp/BlogApp/BlogRepository.kt:37-56 | requests `perPage = 10` and the given page. Result is the API list or `[]`. An API error leaves the cache unchanged. Write `k` failing keeps writes before `k` and returns `[]` |
| BlogRepository.UpsertWritesInto | app/src/main/java/com/example/blogreadingapp/BlogApp/BlogRepository.kt:44-49 | the writes are described id by id: written ids map to their last post, all other ids are untouched |
| BlogRepository.ApiSuccessCachesPage | app/src/main/java/com/example/blogreadingapp/BlogApp/BlogRepository.kt:44-51 | on success the result is exactly the fetched page and the cache holds each page id's last post, others unchanged |
| BlogRepository.PartialWritesPersist | app/src/main/java/com/example/blogreadingapp/BlogApp/BlogRepository.kt:44-54 | if write `k` throws, the result is `[]` but writes `0..k-1` persist and later posts are not written |
| BlogRepository.Convertible | app/src/main/java/com/example/blogreadingapp/BlogApp/BlogRepository.kt:29 | `mapNotNull` over documents: no longer than the input, and a post is in the result iff some document converts to it (documents converting to null are dropped) |
| BlogRepository.ConvertibleAppend | app/src/main/java/com/example/blogreadingapp/BlogApp/BlogRepository.kt:29 | conversion distributes over concatenation, so document order is kept |
| BlogRepository.ConvertibleKeepsAll | app/src/main/java/com/example/blogreadingapp/BlogApp/BlogRepository.kt:29 | when every document converts, nothing is dropped and the order is kept |
| BlogRepository.GetPostsFromFirestore | app/src/main/java/com/example/blogreadingapp/BlogApp/BlogRepository.kt:21-33 | a failed read, or a conversion that throws, gives `[]`. Otherwise the posts are exactly those of the documents that convert, never more than the documents; when every document converts, the posts follow document order one for one, as `mapNotNull` keeps order |
| BlogRepository.GetPostsFromFirestoreOffline | app/src/main/java/com/example/blogreadingapp/BlogApp/BlogRepository.kt:78-90 | the offline read returns the same as `getPostsFromFirestore()` for every query outcome |
| BlogRepository.CacheReadReturnsCachedPosts | app/src/main/java/com/example/blogreadingapp/BlogApp/BlogRepository.kt:21-33 | a read of a collection whose documents all convert and list the cache returns one cached post per document, in document order, and covers every cached id |
| BlogRepository.Limit | app/src/main/java/com/example/blogreadingapp/BlogApp/BlogRepository.kt:64 | `limit(10)` keeps a prefix of at most 10 documents, exactly 10 when there are that many |
| BlogRepository.LoadMorePostsFromFirestore | app/src/main/java/com/example/blogreadingapp/BlogApp/BlogRepository.kt:59-75 | at most 10 posts. The new cursor is the last document of the batch, or null if the batch is empty. A failed read or conversion returns `[]` and keeps the cursor |
| BlogRepository.LoadMoreIgnoresCursor | app/src/main/java/com/example/blogreadingapp/BlogApp/BlogRepository.kt:62-64 | the discarded `startAfter` query means the cursor has no effect on the posts returned |
| BlogRepository.LoadMoreNeverAdvances | app/src/main/java/com/example/blogreadingapp/BlogApp/BlogRepository.kt:62-68 | with more than 10 converting documents, a second call using the first call's cursor returns the same first 10 again; the 11th is never returned when it differs from the first 10 |
| BlogRepository.KeyIndex | app/src/main/java/com/example/blogreadingapp/BlogApp/BlogRepository.kt:63 | position of the cursor document: the first document with that key, or past the end |
| BlogRepository.KeyIndexOfMember | app/src/main/java/com/example/blogreadingapp/BlogApp/BlogRepository.kt:63 | with distinct keys, the cursor document is found at its own position |
| BlogRepository.After | app/src/main/java/com/example/blogreadingapp/BlogApp/BlogRepository.kt:63 | the documents after the cursor are no more than the whole collection |
| BlogRepository.LoadMorePostsAfterCursor | app/src/main/java/com/example/blogreadingapp/BlogApp/BlogRepository.kt:62-68 | corrected query: at most 10 posts; a failed read returns `[]` and keeps the cursor |
| BlogRepository.AfterMember | app/src/main/java/com/example/blogreadingapp/BlogApp/BlogRepository.kt:63 | with distinct keys, the documents after the cursor are exactly those that follow it |
| BlogRepository.NoConversionErrorSlice | app/src/main/java/com/example/blogreadingapp/BlogApp/BlogRepository.kt:67 | a batch cut from documents whose conversions do not throw does not throw either |
| BlogRepository.AfterCursorStarts | app/src/main/java/com/example/blogreadingapp/BlogApp/BlogRepository.kt:62-68 | corrected query: with no cursor, the first call returns the first 10 documents and moves the cursor to the 10th |
| BlogRepository.AfterCursorResumes | app/src/main/java/com/example/blogreadingapp/BlogApp/BlogRepository.kt:62-68 | corrected query with the cursor at document `j` returns documents `j+1..j+10` and moves the cursor to the last of them |
| BlogRepository.AfterCursorWalksCollection | app/src/main/java/com/example/blogreadingapp/BlogApp/BlogRepository.kt:62-68 | corrected query: two calls from no cursor return the first two batches in order, with no repeat |
| BlogViewModel.Initial | app/src/main/java/com/example/blogreadingapp/BlogApp/BlogViewModel.kt:12-21 | the field initialisers: no posts, page 1, not loading, no error |
| BlogViewModel.MessageText | app/src/main/java/com/example/blogreadingapp/BlogApp/BlogViewModel.kt:35 | the `${e.message}` template gives the message, or "null" when the message is null |
| BlogViewModel.FetchPostsFromCache | app/src/main/java/com/example/blogreadingapp/BlogApp/BlogViewModel.kt:28-40 | cached list replaces the posts; an exception keeps the posts and writes the cache error message. Page unchanged, not loading |
| BlogViewModel.Init | app/src/main/java/com/example/blogreadingapp/BlogApp/BlogViewModel.kt:23-25 | after `init`: page 1, not loading, posts are the cache result, error only if the cache call threw |
| BlogViewModel.FetchPostsFromApi | app/src/main/java/com/example/blogreadingapp/BlogApp/BlogViewModel.kt:43-55 | the repository result replaces the posts with no merge. The page counter is never touched. The error is set only on an exception, otherwise unchanged |
| BlogViewModel.NextPage | app/src/main/java/com/example/blogreadingapp/BlogApp/BlogViewModel.kt:62-63 | the page `loadMorePosts` requests is the current page plus one |
| BlogViewModel.LoadMorePosts | app/src/main/java/com/example/blogreadingapp/BlogApp/BlogViewModel.kt:58-71 | the counter moves to the next page whatever the outcome, fetched posts are appended, an exception keeps the posts and sets the error; no `isLoading` precondition |
| BlogViewModel.LoadMoreAppends | app/src/main/java/com/example/blogreadingapp/BlogApp/BlogViewModel.kt:64 | the old list is a prefix; the length is the sum; the tail is exactly the fetched page; duplicate ids are all kept |
| BlogViewModel.RunEndsNotLoading | app/src/main/java/com/example/blogreadingapp/BlogApp/BlogViewModel.kt:36-38 | after any non-empty sequence of operations `isLoading` is false |
| BlogViewModel.PageCountsLoadMores | app/src/main/java/com/example/blogreadingapp/BlogApp/BlogViewModel.kt:43-63 | over any run that keeps the page counter within `Int` range, the counter grows by exactly the number of `loadMorePosts` calls; `fetchPostsFromApi` never moves it |
| BlogViewModel.LoadMoreRun | app/src/main/java/com/example/blogreadingapp/BlogApp/BlogViewModel.kt:58-71 | `N` load-mores from page `p` end on page `p+N`, request pages `p+1..p+N` in order, and leave the old list followed by all returned posts |
| BlogViewModel.ErrorMessageSticks | app/src/main/java/com/example/blogreadingapp/BlogApp/BlogViewModel.kt:34-35 | no operation resets the error to null; if no repository call throws, the error is unchanged |
| BlogViewModel.FailedFirstPageClearsList | app/src/main/java/com/example/blogreadingapp/BlogApp/BlogViewModel.kt:47-48 | with the real repository, a failed page-1 request empties the list, sets no error and writes nothing |
| BlogViewModel.FailedLoadMoreSkipsPage | app/src/main/java/com/example/blogreadingapp/BlogApp/BlogViewModel.kt:62-64 | with the real repository, a failed load-more appends nothing and sets no error, but the counter has advanced |
| BlogListScreen.ScreenStartup | app/src/main/java/com/example/blogreadingapp/BlogApp/BlogListScreen.kt:31-33 | the first effect on its own, run after `init`, requests page 1, does not move the counter, and shows page 1's result |
| BlogListScreen.StartupScrollOrders | app/src/main/java/com/example/blogreadingapp/BlogApp/BlogListScreen.kt:30-52 | with an empty cache, any layout makes the scroll trigger fire at startup. Page 1 completing first gives page 1 then page 2. Page 2 completing first leaves only page 1 shown, with the counter at 2, so the next request is page 3 |
| BlogListScreen.Items | app/src/main/java/com/example/blogreadingapp/BlogApp/BlogListScreen.kt:77-110 | one card per post in order, then the footer; when loading with no posts, the spinner item follows the footer |
| BlogListScreen.ItemCount | app/src/main/java/com/example/blogreadingapp/BlogApp/BlogListScreen.kt:78-110 | the item count is `|posts| + 1`, plus one when loading an empty list; never zero |
| BlogListScreen.LastItemIsNotAPost | app/src/main/java/com/example/blogreadingapp/BlogApp/BlogListScreen.kt:85-110 | the last list item is never a post card |
| BlogListScreen.ShouldLoadMore | app/src/main/java/com/example/blogreadingapp/BlogApp/BlogListScreen.kt:39-45 | false when there are no items or nothing is visible |
| BlogListScreen.ShouldLoadMoreIffLastItemVisible | app/src/main/java/com/example/blogreadingapp/BlogApp/BlogListScreen.kt:41-43 | for a valid layout, the trigger fires iff the last item is among the visible ones |
| BlogListScreen.EmptyListTriggersLoadMore | app/src/main/java/com/example/blogreadingapp/BlogApp/BlogListScreen.kt:47-52 | with no posts and not loading, a layout showing any item makes `shouldLoadMore` true; the `LaunchedEffect` then calls `loadMorePosts()` only when that value changes |
| BlogListScreen.PlainOr | app/src/main/java/com/example/blogreadingapp/BlogApp/BlogListScreen.kt:132 | `?.toPlainText()?.takeIf { it.isNotBlank() } ?: fallback` gives the plain text when it is not blank and the fallback otherwise, a null input included |
| BlogListScreen.CleanTitle | app/src/main/java/com/example/blogreadingapp/BlogApp/BlogListScreen.kt:132 | the title is the plain text when not blank, else "No Title"; never blank, never padded |
| BlogListScreen.CleanContent | app/src/main/java/com/example/blogreadingapp/BlogApp/BlogListScreen.kt:146 | the preview is the plain text when not blank, else "No Content Available"; never blank |
| BlogListScreen.DetailRoute | app/src/main/java/com/example/blogreadingapp/BlogApp/BlogListScreen.kt:80 | the route is `blogDetail/` followed by the id's decimal form |
| Navigation.BlogIdArgument | app/src/main/java/com/example/blogreadingapp/BlogApp/Navigation.kt:16 | a route matches iff it starts with `blogDetail/`, and the argument is the rest of it |
| Navigation.ParseBlogId | app/src/main/java/com/example/blogreadingapp/BlogApp/Navigation.kt:17 | a missing argument gives 0. A present argument gives an id exactly when `toInt()` parses it, and that id is the parsed value; otherwise a `NumberFormatException` |
| Navigation.RouteRoundTrip | app/src/main/java/com/example/blogreadingapp/BlogApp/Navigation.kt:17 | the route a card builds leads the detail screen to exactly that card's id |
| Navigation.DetailRouteInjective | app/src/main/java/com/example/blogreadingapp/BlogApp/BlogListScreen.kt:80 | different ids give different detail routes |
| Sequences.FirstIndexWhere | app/src/main/java/com/example/blogreadingapp/BlogApp/BlogDetailScreen.kt:22 | the index found satisfies the predicate and no earlier element does; it is past the end iff none does |
| BlogDetailScreen.FirstIndexOf | app/src/main/java/com/example/blogreadingapp/BlogApp/BlogDetailScreen.kt:22 | the index found has the id and no earlier post does; past the end iff none does |
| BlogDetailScreen.Find | app/src/main/java/com/example/blogreadingapp/BlogApp/BlogDetailScreen.kt:22 | `find` is absent iff no post has the id; otherwise it is the post at the first index with that id |
| BlogDetailScreen.DetailUrl | app/src/main/java/com/example/blogreadingapp/BlogApp/BlogDetailScreen.kt:22-27 | a URL is shown iff some post has the id, and it is the first such post's `link` |
| BlogDetailScreen.FindAfterAppend | app/src/main/java/com/example/blogreadingapp/BlogApp/BlogDetailScreen.kt:22 | appending keeps the lookup of an id already present, so the earliest occurrence wins; otherwise the appended part is searched |
| BlogDetailScreen.DetailStableUnderLoadMore | app/src/main/java/com/example/blogreadingapp/BlogApp/BlogDetailScreen.kt:19-27 | a load-more that appends a duplicate id leaves that id's detail URL unchanged |

## Findings

| source | as written | input that shows it | evidently intended | confidence | as-written member | corrected member |
|---|---|---|---|---|---|---|
| app/src/main/java/com/example/blogreadingapp/BlogApp/BlogRepository.kt:62-64 | `apply { lastVisible?.let { startAfter(it) } }` builds the `startAfter` query and drops it. `apply` returns the collection, so the query run is always `limit(10)` from the start | a collection of 11 or more documents, then two calls in a row | the second call returns documents 11-20 | high, not executed | BlogRepository.LoadMoreNeverAdvances | BlogRepository.LoadMorePostsAfterCursor |

`LoadMorePostsFromFirestore` models the code as written. `LoadMorePostsAfterCursor`
is the corrected query: it resumes after the cursor document, and
`AfterCursorResumes` and `AfterCursorWalksCollection` prove it pages forward.
Nothing in the app calls this function, so no other part of the model depends
on either version.

## Left out

- Coroutine scheduling is not modelled. Each operation is one atomic step, so the window where `isLoading` is true is not visible, and overlapping operations do not interleave. Concurrent requests are modelled only by the order in which they complete, as in `StartupScrollOrders`.
- HTML-to-text conversion (`HtmlCompat.fromHtml`) is an Android library call. It is the `fromHtml` parameter; only the null case, `trim()` and the blank fallback around it are modelled.
- Compose layout, styling, progress indicators and WebView settings are UI with no checkable logic. The footer is modelled as one item whatever it displays.
- The Retrofit/Gson client, the base URL and JSON decoding are network plumbing. The API is the abstract function `(perPage, page) -> posts or error`.
- Firestore settings, persistence, replication and store order are internals of a foreign store. A read is an abstract snapshot of documents; a write is a map update keyed by id.
- Logging (`Log.d`, `Log.e`) has no effect on state.
- `MainActivity` wiring, the ViewModel factory and the NavHost registration are plumbing.
- BlogRepository.After: in the corrected query, a cursor whose document is no longer in the collection yields no documents. Firestore's `startAfter(snapshot)` would resume after that snapshot's position in key order, which needs a model of the store's key ordering.
- KotlinInt.ParseInt: accepts ASCII digits only. Kotlin's `toInt()` also accepts other Unicode decimal digits.
- Navigation.BlogIdArgument: takes everything after `blogDetail/` as the argument. The navigation library's own matching and URL decoding are not modelled.
- `Post` carries all `BlogResponse` fields, but only `id`, `link`, `title.rendered` and `content.rendered` affect behaviour. The rendered strings are optional, because the screen reads them with safe calls although they are declared non-null.

=== FILE: blog_data.dfy ===
/** The post record the remote API returns and the cache stores (`BlogResponse`
    and its nested wrappers). */
module BlogData {
  import opened Wrappers
  import opened KotlinInt

  /** `Guid`, `Title` and `Content`: one rendered HTML string. They are declared
      non-null, but the JSON decoder can leave the field null and the list
      screen reads it with a safe call, so the string is optional here. */
  datatype Rendered = Rendered(rendered: Option<string>)

  /** One blog post. Only `id`, `link`, `title` and `content` take part in any
      behaviour; the other fields are carried along unchanged. */
  datatype Post = Post(
    id: Int32,
    date: string,
    dateGmt: string,
    guid: Rendered,
    modified: string,
    modifiedGmt: string,
    slug: string,
    status: string,
    postType: string,
    link: string,
    title: Rendered,
    content: Rendered
  )

  /** Number of posts in `posts` whose id is `id`. */
  function CountId(posts: seq<Post>, id: Int32): nat
    decreases |posts|
  {
    if |posts| == 0 then 0
    else CountId(posts[..|posts| - 1], id) + (if posts[|posts| - 1].id == id then 1 else 0)
  }

  /** Counting ids distributes over concatenation: appending never merges or drops a post. */
  lemma {:induction false} CountIdAppend(a: seq<Post>, b: seq<Post>, id: Int32)
    ensures CountId(a + b, id) == CountId(a, id) + CountId(b, id)
    decreases |b|
  {
    if |b| > 0 {
      assert (a + b)[..|a + b| - 1] == a + b[..|b| - 1];
      CountIdAppend(a, b[..|b| - 1], id);
    } else {
      assert a + b == a;
    }
  }
}

=== FILE: blog_detail_screen.dfy ===
/** The logic inside `BlogDetailScreen`: finding the post for an id in the
    posts already held in memory, and the URL handed to the web view. */
module BlogDetailScreen {
  import opened Wrappers
  import opened KotlinInt
  import opened BlogData
  import opened Sequences
  import BlogViewModel

  /** Index of the first post with id `id`, or `|posts|` when there is none. */
  function FirstIndexOf(posts: seq<Post>, id: Int32): (k: nat)
    ensures k <= |posts|
    ensures k < |posts| ==> posts[k].id == id
    ensures forall j :: 0 <= j < k ==> posts[j].id != id
  {
    FirstIndexWhere(posts, (p: Post) => p.id == id)
  }

  /** `posts.find { it.id == blogId }`: the first post in list order with that
      id; absence is `None`, not an error. */
  function Find(posts: seq<Post>, blogId: Int32): (r: Option<Post>)
    ensures r.None? <==> forall i :: 0 <= i < |posts| ==> posts[i].id != blogId
    ensures r.Some? ==> r.value.id == blogId && r.value in posts
    ensures r.Some? ==>
      exists k :: 0 <= k < |posts| && posts[k] == r.value && (forall i :: 0 <= i < k ==> posts[i].id != blogId)
  {
    var k := FirstIndexOf(posts, blogId);
    if k < |posts| then
      // witness for the `exists k` ensures
      assert 0 <= k < |posts| && posts[k] == posts[k];
      Some(posts[k])
    else None
  }

  /** The URL the screen loads: the found post's `link`; nothing is shown when no post has the id. */
  function DetailUrl(posts: seq<Post>, blogId: Int32): (url: Option<string>)
    ensures url.Some? <==> exists i :: 0 <= i < |posts| && posts[i].id == blogId
    ensures url.Some? ==> url.value == posts[FirstIndexOf(posts, blogId)].link
  {
    match Find(posts, blogId)
    case Some(post) => Some(post.link)
    case None => None
  }

  /** Appending never changes the lookup of an id already present: the
      earliest occurrence wins. An id not yet present is looked up in the
      appended part. */
  lemma FindAfterAppend(shown: seq<Post>, appended: seq<Post>, blogId: Int32)
    ensures Find(shown, blogId).Some? ==> Find(shown + appended, blogId) == Find(shown, blogId)
    ensures Find(shown, blogId).None? ==> Find(shown + appended, blogId) == Find(appended, blogId)
  {
    var all := shown + appended;
    var ka := FirstIndexOf(shown, blogId);
    var k := FirstIndexOf(all, blogId);
    if ka < |shown| {
      assert all[ka] == shown[ka];
      assert k <= ka;
      assert k == ka;
    } else {
      var kb := FirstIndexOf(appended, blogId);
      assert forall j :: 0 <= j < |shown| ==> all[j] == shown[j];
      assert k >= |shown|;
      assert kb < |appended| ==> all[|shown| + kb] == appended[kb];
      assert k <= |shown| + kb;
      assert k < |all| ==> all[k] == appended[k - |shown|];
      assert k == |shown| + kb;
    }
  }

  /** So a `loadMorePosts()` that appends a post with an id already on screen
      leaves the detail screen for that id showing the earlier post. */
  lemma DetailStableUnderLoadMore(s: BlogViewModel.VmState, fetched: seq<Post>, blogId: Int32)
    requires Find(s.posts, blogId).Some?
    ensures DetailUrl(BlogViewModel.LoadMorePosts(s, BlogViewModel.Returned(fetched)).posts, blogId)
      == DetailUrl(s.posts, blogId)
  {
    FindAfterAppend(s.posts, fetched, blogId);
  }
}

=== FILE: blog_list_screen.dfy ===
/** The logic inside `BlogListScreen`: the request made on first display, the
    scroll trigger for loading more, the items the list emits, the title and
    preview fallbacks, and the detail route built on a click. */
module BlogListScreen {
  import opened Wrappers
  import opened KotlinInt
  import opened BlogData
  import opened PlainText
  import BlogViewModel

  /** The request the screen's first effect makes: `fetchPostsFromApi(page = 1)`. */
  const FIRST_SCREEN_COMMAND: BlogViewModel.Command := BlogViewModel.FetchFromApi(1)

  /** The first effect on its own: `fetchPostsFromApi(page = 1)` after `init`
      requests page 1, does not move the counter, and shows what page 1 gave.
      The scroll effect also runs at startup; `StartupScrollOrders` covers it. */
  lemma ScreenStartup(cached: BlogViewModel.RepoOutcome, fetched: BlogViewModel.RepoOutcome)
    ensures var s := BlogViewModel.Init(cached);
      var events := [BlogViewModel.Event(FIRST_SCREEN_COMMAND, fetched)];
      var r := BlogViewModel.Run(s, events);
      && BlogViewModel.RequestedPages(s, events) == [1]
      && r.currentPage == 1 && !r.isLoading
      && (fetched.Returned? ==> r.posts == fetched.posts)
  {
    var s := BlogViewModel.Init(cached);
    var events := [BlogViewModel.Event(FIRST_SCREEN_COMMAND, fetched)];
    assert events[1..] == [];
  }

  /** One entry of the lazy list: a post card, the footer that is always
      emitted after the posts, or the spinner shown while loading an empty list. */
  datatype ListItem = PostCard(post: Post) | Footer | InitialSpinner

  /** The items the `LazyColumn` emits, in order. */
  function Items(posts: seq<Post>, isLoading: bool): (r: seq<ListItem>)
    ensures |r| == |posts| + (if isLoading && |posts| == 0 then 2 else 1)
    ensures forall i :: 0 <= i < |posts| ==> r[i] == PostCard(posts[i])
    ensures r[|posts|] == Footer
    ensures isLoading && |posts| == 0 ==> r[1] == InitialSpinner
  {
    seq(|posts|, i requires 0 <= i < |posts| => PostCard(posts[i])) + [Footer]
      + (if isLoading && |posts| == 0 then [InitialSpinner] else [])
  }

  /** The layout's `totalItemsCount`: the posts plus the footer, plus the
      spinner when loading with no posts; never zero. */
  function ItemCount(posts: seq<Post>, isLoading: bool): (n: nat)
    ensures n >= 1
    ensures |posts| + 1 <= n <= |posts| + 2
    ensures n == |Items(posts, isLoading)|
  {
    |posts| + 1 + (if isLoading && |posts| == 0 then 1 else 0)
  }

  /** The last item of the list is never a post, so reaching it means the
      footer or the spinner is visible. */
  lemma LastItemIsNotAPost(posts: seq<Post>, isLoading: bool)
    ensures var items := Items(posts, isLoading);
      !items[ItemCount(posts, isLoading) - 1].PostCard?
  {
  }

  /** What the lazy list reports: the indices of the visible items, in
      order, and the number of items. */
  datatype LayoutInfo = LayoutInfo(visibleIndices: seq<int>, totalItemsCount: int)

  /** A layout the list can report: visible indices increasing and in range. */
  predicate WellFormed(layout: LayoutInfo) {
    && (forall i :: 0 <= i < |layout.visibleIndices| ==> 0 <= layout.visibleIndices[i] < layout.totalItemsCount)
    && (forall i, j :: 0 <= i < j < |layout.visibleIndices| ==> layout.visibleIndices[i] < layout.visibleIndices[j])
  }

  /** The `shouldLoadMore` derived state: the index of the last visible item
      (null when nothing is visible) equals `totalItems - 1`, and `totalItems`
      is positive. */
  function ShouldLoadMore(layout: LayoutInfo): (r: bool)
    ensures r ==> layout.totalItemsCount > 0 && |layout.visibleIndices| > 0
    ensures layout.totalItemsCount <= 0 || |layout.visibleIndices| == 0 ==> !r
  {
    var lastVisible: Option<int> :=
      if |layout.visibleIndices| == 0 then None else Some(layout.visibleIndices[|layout.visibleIndices| - 1]);
    layout.totalItemsCount > 0 && lastVisible == Some(layout.totalItemsCount - 1)
  }

  /** For a layout the list can report, the trigger fires exactly when the
      last item of the list is among the visible ones. */
  lemma ShouldLoadMoreIffLastItemVisible(layout: LayoutInfo)
    requires WellFormed(layout)
    ensures ShouldLoadMore(layout) <==> layout.totalItemsCount > 0 && (layout.totalItemsCount - 1) in layout.visibleIndices
  {
    var v := layout.visibleIndices;
    var last := layout.totalItemsCount - 1;
    assert forall j :: 0 <= j < |v| - 1 ==> v[j] < v[|v| - 1];
    if last in v && layout.totalItemsCount > 0 {
      var k :| 0 <= k < |v| && v[k] == last;
      assert k == |v| - 1;
    }
  }

  /** With no posts and nothing loading the footer is the only item, so any
      layout showing an item makes `shouldLoadMore` true. */
  lemma EmptyListTriggersLoadMore(layout: LayoutInfo)
    requires WellFormed(layout)
    requires layout.totalItemsCount == ItemCount([], false)
    requires |layout.visibleIndices| > 0
    ensures ShouldLoadMore(layout)
  {
    assert layout.visibleIndices[|layout.visibleIndices| - 1] == 0;
  }

  /** At startup with an empty cache the footer is the only item, so the
      scroll effect fires too and `loadMorePosts()` asks for page 2 while the
      first effect asks for page 1. Both coroutines run concurrently; the two
      orders in which they can complete end differently. If page 1 completes
      first, the list is page 1 then page 2. If page 2 completes first, page 1
      replaces it, page 2's posts are no longer shown, and the counter is
      already 2, so the next load-more asks for page 3. */
  lemma StartupScrollOrders(layout: LayoutInfo, page1: seq<Post>, page2: seq<Post>)
    requires WellFormed(layout)
    requires layout.totalItemsCount == ItemCount([], false)
    requires |layout.visibleIndices| > 0
    ensures var s := BlogViewModel.Init(BlogViewModel.Returned([]));
      var first := BlogViewModel.Event(FIRST_SCREEN_COMMAND, BlogViewModel.Returned(page1));
      var more := BlogViewModel.Event(BlogViewModel.LoadMore, BlogViewModel.Returned(page2));
      var inOrder := BlogViewModel.Run(s, [first, more]);
      var reversed := BlogViewModel.Run(s, [more, first]);
      && ShouldLoadMore(layout)
      && BlogViewModel.RequestedPages(s, [first, more]) == [1, 2]
      && inOrder.posts == page1 + page2 && inOrder.currentPage == 2
      && BlogViewModel.RequestedPages(s, [more, first]) == [2, 1]
      && reversed.posts == page1 && reversed.currentPage == 2
      && BlogViewModel.NextPage(reversed) == 3
  {
    EmptyListTriggersLoadMore(layout);
    var s := BlogViewModel.Init(BlogViewModel.Returned([]));
    var first := BlogViewModel.Event(FIRST_SCREEN_COMMAND, BlogViewModel.Returned(page1));
    var more := BlogViewModel.Event(BlogViewModel.LoadMore, BlogViewModel.Returned(page2));
    assert [first, more][1..] == [more] && [more, first][1..] == [first];
    assert [more][1..] == [] && [first][1..] == [];
    var afterFirst := BlogViewModel.Step(s, first);
    assert afterFirst.posts == page1 && afterFirst.currentPage == 1;
    assert BlogViewModel.Run(s, [first, more]) == BlogViewModel.Run(afterFirst, [more]);
    assert BlogViewModel.Run(afterFirst, [more]) == BlogViewModel.Step(afterFirst, more);
    assert BlogViewModel.RequestedPages(afterFirst, [more]) == [2];
    var afterMore := BlogViewModel.Step(s, more);
    assert afterMore.posts == page2 && afterMore.currentPage == 2;
    assert BlogViewModel.Run(s, [more, first]) == BlogViewModel.Run(afterMore, [first]);
    assert BlogViewModel.Run(afterMore, [first]) == BlogViewModel.Step(afterMore, first);
    assert BlogViewModel.RequestedPages(afterMore, [first]) == [1];
    assert BlogViewModel.NextPage(BlogViewModel.Step(afterMore, first)) == 3;
  }

  const NO_TITLE: string := "No Title"
  const NO_CONTENT: string := "No Content Available"

  /** `text?.toPlainText()?.takeIf { it.isNotBlank() } ?: fallback`. */
  function PlainOr(html: Option<string>, fromHtml: string -> string, fallback: string): (r: string)
    ensures var t := ToPlainText(html, fromHtml);
      (!IsBlank(t) ==> r == t) && (IsBlank(t) ==> r == fallback)
  {
    match html
    case None => fallback
    case Some(_) =>
      var t := ToPlainText(html, fromHtml);
      if !IsBlank(t) then t else fallback
  }

  /** The card's title: the plain text of the rendered title if it is not
      blank, "No Title" otherwise. It is never blank and never has
      whitespace at either end. */
  function CleanTitle(post: Post, fromHtml: string -> string): (r: string)
    ensures var t := ToPlainText(post.title.rendered, fromHtml);
      (!IsBlank(t) ==> r == t) && (IsBlank(t) ==> r == NO_TITLE)
    ensures !IsBlank(r) && IsTrimmed(r)
  {
    assert !IsWhitespace(NO_TITLE[0]);
    PlainOr(post.title.rendered, fromHtml, NO_TITLE)
  }

  /** The card's preview: the plain text of the rendered content if it is
      not blank, "No Content Available" otherwise. */
  function CleanContent(post: Post, fromHtml: string -> string): (r: string)
    ensures var t := ToPlainText(post.content.rendered, fromHtml);
      (!IsBlank(t) ==> r == t) && (IsBlank(t) ==> r == NO_CONTENT)
    ensures !IsBlank(r) && IsTrimmed(r)
  {
    assert !IsWhitespace(NO_CONTENT[0]);
    PlainOr(post.content.rendered, fromHtml, NO_CONTENT)
  }

  const DETAIL_ROUTE_PREFIX: string := "blogDetail/"

  /** The route a card click navigates to: `"blogDetail/${post.id}"`. */
  function DetailRoute(id: Int32): (route: string)
    ensures DETAIL_ROUTE_PREFIX <= route
    ensures route[|DETAIL_ROUTE_PREFIX|..] == ToString(id)
  {
    DETAIL_ROUTE_PREFIX + ToString(id)
  }
}

=== FILE: blog_repository.dfy ===
/** `BlogRepository`: fetches pages from the remote API, writes each post into
    the "blog_posts" document collection, and reads that collection back. The
    API and the store are parameters: the API is a function of
    `(perPage, page)`, every store read is a `QueryResult`, and the failure of
    a store write is the index of the first write that throws. */
module BlogRepository {
  import opened Wrappers
  import opened KotlinInt
  import opened BlogData
  import opened Sequences

  /** Page size passed to every API request. */
  const PER_PAGE: Int32 := 10

  /** `limit(10)` on the store's "load more" query. */
  const FIRESTORE_LIMIT: nat := 10

  /** Outcome of `blogApiService.getPosts(perPage, page)`. */
  datatype ApiResponse = ApiOk(posts: seq<Post>) | ApiError

  /** The remote endpoint, as a function of `(perPage, page)`. */
  type Api = (Int32, Int32) -> ApiResponse

  /** The "blog_posts" collection, by post id. Its document key is
      `id.toString()`, which is injective (`KotlinInt.ToStringInjective`). */
  type Cache = map<Int32, Post>

  /** What `toObject(BlogResponse)` does with a document's fields: a post,
      `null`, or an exception (fields that do not map onto the class). */
  datatype Conversion = Converted(post: Post) | NullObject | ConversionError

  /** A stored document: its key and how its fields convert back to a post. */
  datatype Document = Document(key: string, conversion: Conversion)

  /** No document of `docs` makes `toObject` throw. */
  predicate NoConversionError(docs: seq<Document>) {
    forall i :: 0 <= i < |docs| ==> !docs[i].conversion.ConversionError?
  }

  /** Outcome of one `get().await()` on a store query: its documents in store order, or an exception. */
  datatype QueryResult = Snapshot(documents: seq<Document>) | QueryError

  /** Writes `posts` one after another, each `set` replacing the document with the same id. */
  function Upsert(cache: Cache, posts: seq<Post>): (r: Cache)
    ensures r.Keys == cache.Keys + (set p | p in posts :: p.id)
    decreases |posts|
  {
    if |posts| == 0 then cache
    else
      var last := posts[|posts| - 1];
      Upsert(cache, posts[..|posts| - 1])[last.id := last]
  }

  /** Index of the last post in `posts` with id `id`, or -1 when there is none. */
  function LastIndexWithId(posts: seq<Post>, id: Int32): (k: int)
    ensures -1 <= k < |posts|
    ensures k >= 0 ==> posts[k].id == id
    ensures forall j :: k < j < |posts| ==> posts[j].id != id
    decreases |posts|
  {
    if |posts| == 0 then -1
    else if posts[|posts| - 1].id == id then |posts| - 1
    else LastIndexWithId(posts[..|posts| - 1], id)
  }

  /** Reference definition of last-write-wins: the last post in `posts` with id `id`. */
  function LastWithId(posts: seq<Post>, id: Int32): (r: Option<Post>)
    ensures r.None? <==> forall i :: 0 <= i < |posts| ==> posts[i].id != id
    ensures r.Some? ==> r.value in posts && r.value.id == id
    ensures r.Some? ==>
      exists k :: 0 <= k < |posts| && posts[k] == r.value && (forall j :: k < j < |posts| ==> posts[j].id != id)
  {
    var k := LastIndexWithId(posts, id);
    if k >= 0 then
      // witness for the `exists k` ensures
      assert 0 <= k < |posts| && posts[k] == posts[k];
      Some(posts[k])
    else None
  }

  /** After a sequence of writes, each written id holds the LAST post written
      under it, and every other id is as it was. */
  lemma {:induction false} UpsertLastWriteWins(cache: Cache, posts: seq<Post>, id: Int32)
    ensures LastWithId(posts, id).Some? ==>
      id in Upsert(cache, posts) && Upsert(cache, posts)[id] == LastWithId(posts, id).value
    ensures LastWithId(posts, id).None? ==>
      (id in Upsert(cache, posts) <==> id in cache) &&
      (id in cache ==> Upsert(cache, posts)[id] == cache[id])
    decreases |posts|
  {
    if |posts| > 0 {
      UpsertLastWriteWins(cache, posts[..|posts| - 1], id);
    }
  }

  /** Writing two versions of one post in turn leaves one record, the second. */
  lemma UpsertSecondVersionWins(cache: Cache, a: Post, b: Post)
    requires a.id == b.id
    ensures Upsert(cache, [a, b]) == cache[b.id := b]
  {
    assert [a, b][..1] == [a];
    assert [a][..0] == [];
    assert Upsert(cache, [a]) == cache[a.id := a];
  }

  /** Result of `getPostsFromApi(page)` together with the collection after it. */
  datatype ApiFetch = ApiFetch(posts: seq<Post>, cache: Cache)

  /** `getPostsFromApi(page)`: requests `PER_PAGE` posts of `page`, then writes
      them in order. Any exception, from the request or from the write at
      index `failingWrite`, is caught and turned into `[]`; the writes done
      before it stay. */
  function GetPostsFromApi(cache: Cache, page: Int32, api: Api, failingWrite: Option<nat>): (r: ApiFetch)
    ensures r.posts == [] || (api(PER_PAGE, page).ApiOk? && r.posts == api(PER_PAGE, page).posts)
    ensures api(PER_PAGE, page).ApiError? ==> r == ApiFetch([], cache)
    ensures api(PER_PAGE, page).ApiOk? ==>
      var fetched := api(PER_PAGE, page).posts;
      if failingWrite.Some? && failingWrite.value < |fetched|
      then r == ApiFetch([], Upsert(cache, fetched[..failingWrite.value]))
      else r == ApiFetch(fetched, Upsert(cache, fetched))
  {
    match api(PER_PAGE, page)
    case ApiError => ApiFetch([], cache)
    case ApiOk(fetched) =>
      if failingWrite.Some? && failingWrite.value < |fetched|
      then ApiFetch([], Upsert(cache, fetched[..failingWrite.value]))
      else ApiFetch(fetched, Upsert(cache, fetched))
  }

  /** The collection after writing `written`, described id by id: each
      written id holds the last post written under it, every other id is
      untouched. */
  predicate WrittenInto(cache: Cache, written: seq<Post>, after: Cache) {
    && (forall i :: 0 <= i < |written| ==>
          written[i].id in after && after[written[i].id] == LastWithId(written, written[i].id).value)
    && (forall id :: LastWithId(written, id).None? ==>
          (id in after <==> id in cache) && (id in cache ==> after[id] == cache[id]))
  }

  lemma UpsertWritesInto(cache: Cache, written: seq<Post>)
    ensures WrittenInto(cache, written, Upsert(cache, written))
  {
    forall id | true
      ensures LastWithId(written, id).Some? ==>
        Upsert(cache, written)[id] == LastWithId(written, id).value
      ensures LastWithId(written, id).None? ==>
        (id in Upsert(cache, written) <==> id in cache) &&
        (id in cache ==> Upsert(cache, written)[id] == cache[id])
    {
      UpsertLastWriteWins(cache, written, id);
    }
    forall i | 0 <= i < |written|
      ensures LastWithId(written, written[i].id).Some?
    {
    }
  }

  /** On success the call returns exactly the fetched page, every id of the
      page maps to the last post of the page with that id, and all other
      documents are untouched. */
  lemma ApiSuccessCachesPage(cache: Cache, page: Int32, api: Api)
    requires api(PER_PAGE, page).ApiOk?
    ensures var r := GetPostsFromApi(cache, page, api, None);
      r.posts == api(PER_PAGE, page).posts && WrittenInto(cache, api(PER_PAGE, page).posts, r.cache)
  {
    UpsertWritesInto(cache, api(PER_PAGE, page).posts);
  }

  /** When write `k` throws, the call returns `[]`, yet writes `0..k-1` stay
      in the collection and the posts from `k` on are not written. */
  lemma PartialWritesPersist(cache: Cache, page: Int32, api: Api, k: nat)
    requires api(PER_PAGE, page).ApiOk? && k < |api(PER_PAGE, page).posts|
    ensures var r := GetPostsFromApi(cache, page, api, Some(k));
      r.posts == [] && WrittenInto(cache, api(PER_PAGE, page).posts[..k], r.cache)
  {
    UpsertWritesInto(cache, api(PER_PAGE, page).posts[..k]);
  }

  /** `documents.mapNotNull { it.toObject(BlogResponse) }` when no
      conversion throws: the posts of the documents that convert, in
      document order, the `null` ones dropped. */
  function Convertible(docs: seq<Document>): (r: seq<Post>)
    ensures |r| <= |docs|
    ensures forall p :: p in r <==> exists i :: 0 <= i < |docs| && docs[i].conversion == Converted(p)
    decreases |docs|
  {
    if |docs| == 0 then []
    else
      var rest := Convertible(docs[1..]);
      assert forall i :: 0 < i < |docs| ==> docs[i] == docs[1..][i - 1];
      match docs[0].conversion
      case Converted(p) => [p] + rest
      case _ => rest
  }

  /** Converting a concatenation converts each part in turn, so document order is kept. */
  lemma {:induction false} ConvertibleAppend(a: seq<Document>, b: seq<Document>)
    ensures Convertible(a + b) == Convertible(a) + Convertible(b)
    decreases |a|
  {
    if |a| > 0 {
      assert (a + b)[1..] == a[1..] + b;
      ConvertibleAppend(a[1..], b);
    } else {
      assert a + b == b;
    }
  }

  /** When every document converts, nothing is dropped and order is kept. */
  lemma {:induction false} ConvertibleKeepsAll(docs: seq<Document>)
    requires forall i :: 0 <= i < |docs| ==> docs[i].conversion.Converted?
    ensures |Convertible(docs)| == |docs|
    ensures forall i :: 0 <= i < |docs| ==> Convertible(docs)[i] == docs[i].conversion.post
    decreases |docs|
  {
    if |docs| > 0 {
      ConvertibleKeepsAll(docs[1..]);
    }
  }

  /** `getPostsFromFirestore()`: the converted documents of the whole
      collection; `[]` if the read throws or any conversion throws. */
  function GetPostsFromFirestore(q: QueryResult): (r: seq<Post>)
    ensures q.QueryError? ==> r == []
    ensures q.Snapshot? && !NoConversionError(q.documents) ==> r == []
    ensures q.Snapshot? ==> |r| <= |q.documents|
    ensures q.Snapshot? && NoConversionError(q.documents) ==>
      forall p :: p in r <==> exists i :: 0 <= i < |q.documents| && q.documents[i].conversion == Converted(p)
    ensures q.Snapshot? && (forall i :: 0 <= i < |q.documents| ==> q.documents[i].conversion.Converted?) ==>
      |r| == |q.documents| && forall i :: 0 <= i < |r| ==> r[i] == q.documents[i].conversion.post
  {
    match q
    case Snapshot(docs) =>
      if NoConversionError(docs) then
        assert (forall i :: 0 <= i < |docs| ==> docs[i].conversion.Converted?) ==>
          |Convertible(docs)| == |docs| && forall i :: 0 <= i < |docs| ==> Convertible(docs)[i] == docs[i].conversion.post
        by { if forall i :: 0 <= i < |docs| ==> docs[i].conversion.Converted? { ConvertibleKeepsAll(docs); } }
        Convertible(docs)
      else []
    case QueryError => []
  }

  /** `getPostsFromFirestoreOffline()`: issues the same query as
      `getPostsFromFirestore()` and handles it the same way. */
  function GetPostsFromFirestoreOffline(q: QueryResult): (r: seq<Post>)
    ensures r == GetPostsFromFirestore(q)
  {
    match q
    case Snapshot(docs) => if NoConversionError(docs) then Convertible(docs) else []
    case QueryError => []
  }

  /** A read of a collection in which every document converts and lists the
      cache returns exactly the cached posts, one per document. */
  lemma CacheReadReturnsCachedPosts(cache: Cache, docs: seq<Document>)
    requires forall i :: 0 <= i < |docs| ==> docs[i].conversion.Converted?
    requires forall i :: 0 <= i < |docs| ==>
      docs[i].conversion.post.id in cache && cache[docs[i].conversion.post.id] == docs[i].conversion.post
    requires forall id :: id in cache ==> exists i :: 0 <= i < |docs| && docs[i].conversion.post.id == id
    ensures var r := GetPostsFromFirestore(Snapshot(docs));
      && |r| == |docs|
      && (forall i :: 0 <= i < |r| ==> r[i] == docs[i].conversion.post)
      && (forall i :: 0 <= i < |r| ==> r[i].id in cache && r[i] == cache[r[i].id])
      && (forall id :: id in cache ==> exists i :: 0 <= i < |r| && r[i].id == id)
  {
    ConvertibleKeepsAll(docs);
  }

  /** What `loadMorePostsFromFirestore()` returns, with the cursor `lastVisible` it leaves. */
  datatype FirestorePage = FirestorePage(posts: seq<Post>, lastVisible: Option<Document>)

  /** The first `FIRESTORE_LIMIT` documents of `docs`. */
  function Limit(docs: seq<Document>): (r: seq<Document>)
    ensures |r| <= FIRESTORE_LIMIT && r <= docs
    ensures |docs| >= FIRESTORE_LIMIT ==> |r| == FIRESTORE_LIMIT
    ensures |docs| < FIRESTORE_LIMIT ==> r == docs
  {
    if |docs| <= FIRESTORE_LIMIT then docs else docs[..FIRESTORE_LIMIT]
  }

  /** `loadMorePostsFromFirestore()` as written. `collection` is the read of
      the whole collection in store order. The `startAfter(lastVisible)` query
      is built inside `apply` and dropped, so the query run is
      `collection.limit(10)` whatever the cursor. The cursor becomes the last
      document of the batch (`None` for an empty batch); a failed read or
      conversion returns `[]` and keeps the cursor. */
  function LoadMorePostsFromFirestore(lastVisible: Option<Document>, collection: QueryResult): (r: FirestorePage)
    ensures |r.posts| <= FIRESTORE_LIMIT
    ensures collection.QueryError? ==> r == FirestorePage([], lastVisible)
    ensures collection.Snapshot? && !NoConversionError(Limit(collection.documents)) ==>
      r == FirestorePage([], lastVisible)
    ensures collection.Snapshot? && NoConversionError(Limit(collection.documents)) ==>
      var docs := collection.documents;
      && (r.lastVisible.None? <==> |docs| == 0)
      && (r.lastVisible.Some? ==> r.lastVisible.value == docs[|Limit(docs)| - 1])
      && r.posts == Convertible(docs[..|Limit(docs)|])
  {
    match collection
    case QueryError => FirestorePage([], lastVisible)
    case Snapshot(docs) =>
      var batch := Limit(docs);
      assert batch == docs[..|batch|];
      if !NoConversionError(batch) then FirestorePage([], lastVisible)
      else FirestorePage(Convertible(batch), if |batch| == 0 then None else Some(batch[|batch| - 1]))
  }

  /** The cursor has no effect on what the as-written query returns. */
  lemma LoadMoreIgnoresCursor(c1: Option<Document>, c2: Option<Document>, collection: QueryResult)
    ensures LoadMorePostsFromFirestore(c1, collection).posts == LoadMorePostsFromFirestore(c2, collection).posts
  {
  }

  /** So a second call, made with the cursor the first left, returns the same
      first batch again, while a collection of more than `FIRESTORE_LIMIT`
      documents has a document the calls never reach. */
  lemma LoadMoreNeverAdvances(cursor: Option<Document>, docs: seq<Document>)
    requires |docs| > FIRESTORE_LIMIT
    requires forall i :: 0 <= i < |docs| ==> docs[i].conversion.Converted?
    ensures var first := LoadMorePostsFromFirestore(cursor, Snapshot(docs));
      var second := LoadMorePostsFromFirestore(first.lastVisible, Snapshot(docs));
      && second == first
      && |first.posts| == FIRESTORE_LIMIT
      && first.posts == Convertible(docs[..FIRESTORE_LIMIT])
      && (docs[FIRESTORE_LIMIT].conversion.post !in Convertible(docs[..FIRESTORE_LIMIT])
            <== (forall i :: 0 <= i < FIRESTORE_LIMIT ==> docs[i].conversion != docs[FIRESTORE_LIMIT].conversion))
  {
    ConvertibleKeepsAll(docs[..FIRESTORE_LIMIT]);
  }

  /** Document keys are distinct, as they are in one collection. */
  predicate DistinctKeys(docs: seq<Document>) {
    forall i, j :: 0 <= i < j < |docs| ==> docs[i].key != docs[j].key
  }

  /** Index of the first document whose key is `key`, or `|docs|`. */
  function KeyIndex(docs: seq<Document>, key: string): (k: nat)
    ensures k <= |docs|
    ensures k < |docs| ==> docs[k].key == key
    ensures forall j :: 0 <= j < k ==> docs[j].key != key
  {
    FirstIndexWhere(docs, (d: Document) => d.key == key)
  }

  /** The documents after `cursor`: all of them when there is no cursor, none
      when the cursor's key is no longer present. */
  function After(docs: seq<Document>, cursor: Option<Document>): (r: seq<Document>)
    ensures |r| <= |docs|
  {
    match cursor
    case None => docs
    case Some(c) =>
      var k := KeyIndex(docs, c.key);
      if k < |docs| then docs[k + 1..] else []
  }

  /** The evident intent of `loadMorePostsFromFirestore()`: the query is
      `startAfter(lastVisible).limit(10)`, so each call resumes after the
      document the previous call ended on. */
  function LoadMorePostsAfterCursor(lastVisible: Option<Document>, collection: QueryResult): (r: FirestorePage)
    ensures |r.posts| <= FIRESTORE_LIMIT
    ensures collection.QueryError? ==> r == FirestorePage([], lastVisible)
  {
    match collection
    case QueryError => FirestorePage([], lastVisible)
    case Snapshot(docs) =>
      var batch := Limit(After(docs, lastVisible));
      if !NoConversionError(batch) then FirestorePage([], lastVisible)
      else FirestorePage(Convertible(batch), if |batch| == 0 then None else Some(batch[|batch| - 1]))
  }

  /** In a collection with distinct keys, the cursor document is found at its own position. */
  lemma KeyIndexOfMember(docs: seq<Document>, j: nat)
    requires DistinctKeys(docs) && j < |docs|
    ensures KeyIndex(docs, docs[j].key) == j
  {
    var k := KeyIndex(docs, docs[j].key);
    assert k <= j;
  }

  /** A batch cut from a collection whose conversions do not throw does not throw either. */
  lemma NoConversionErrorSlice(docs: seq<Document>, a: nat, b: nat)
    requires NoConversionError(docs) && a <= b <= |docs|
    ensures NoConversionError(docs[a..b])
  {
    var batch := docs[a..b];
    forall i | 0 <= i < |batch|
      ensures !batch[i].conversion.ConversionError?
    {
      assert batch[i] == docs[a + i];
    }
  }

  /** The corrected call on a batch whose conversions do not throw returns
      that batch's posts and moves the cursor to its last document. */
  lemma AfterCursorPage(docs: seq<Document>, cursor: Option<Document>, batch: seq<Document>)
    requires Limit(After(docs, cursor)) == batch && NoConversionError(batch)
    ensures LoadMorePostsAfterCursor(cursor, Snapshot(docs))
      == FirestorePage(Convertible(batch), if |batch| == 0 then None else Some(batch[|batch| - 1]))
  {
  }

  /** With distinct keys, the documents after document `j` are exactly those that follow it. */
  lemma AfterMember(docs: seq<Document>, j: nat)
    requires DistinctKeys(docs) && j < |docs|
    ensures After(docs, Some(docs[j])) == docs[j + 1..]
  {
    KeyIndexOfMember(docs, j);
  }

  /** With the corrected query, a call whose cursor is document `j` returns
      the next batch, documents `j+1 .. j+10`, and leaves the cursor on the
      last of them. */
  lemma AfterCursorResumes(docs: seq<Document>, j: nat)
    requires DistinctKeys(docs) && NoConversionError(docs) && j < |docs|
    ensures var e := if j + 1 + FIRESTORE_LIMIT <= |docs| then j + 1 + FIRESTORE_LIMIT else |docs|;
      var r := LoadMorePostsAfterCursor(Some(docs[j]), Snapshot(docs));
      && r.posts == Convertible(docs[j + 1..e])
      && (e > j + 1 ==> r.lastVisible == Some(docs[e - 1]))
      && (e == j + 1 ==> r.lastVisible.None?)
  {
    var e := if j + 1 + FIRESTORE_LIMIT <= |docs| then j + 1 + FIRESTORE_LIMIT else |docs|;
    var batch := docs[j + 1..e];
    AfterMember(docs, j);
    assert Limit(docs[j + 1..]) == batch;
    NoConversionErrorSlice(docs, j + 1, e);
    AfterCursorPage(docs, Some(docs[j]), batch);
  }

  /** With the corrected query and no cursor, the first call returns the first batch. */
  lemma AfterCursorStarts(docs: seq<Document>)
    requires NoConversionError(docs) && |docs| >= FIRESTORE_LIMIT
    ensures LoadMorePostsAfterCursor(None, Snapshot(docs))
      == FirestorePage(Convertible(docs[..FIRESTORE_LIMIT]), Some(docs[FIRESTORE_LIMIT - 1]))
  {
    assert Limit(docs) == docs[..FIRESTORE_LIMIT];
    NoConversionErrorSlice(docs, 0, FIRESTORE_LIMIT);
  }

  /** Starting with no cursor, two corrected calls return the first two
      batches, one after the other, without repeating a document. */
  lemma AfterCursorWalksCollection(docs: seq<Document>)
    requires DistinctKeys(docs) && NoConversionError(docs) && |docs| > FIRESTORE_LIMIT
    ensures var first := LoadMorePostsAfterCursor(None, Snapshot(docs));
      var second := LoadMorePostsAfterCursor(first.lastVisible, Snapshot(docs));
      var e := if 2 * FIRESTORE_LIMIT <= |docs| then 2 * FIRESTORE_LIMIT else |docs|;
      first.posts + second.posts == Convertible(docs[..e])
  {
    AfterCursorStarts(docs);
    AfterCursorResumes(docs, FIRESTORE_LIMIT - 1);
    var e := if 2 * FIRESTORE_LIMIT <= |docs| then 2 * FIRESTORE_LIMIT else |docs|;
    assert docs[..e] == docs[..FIRESTORE_LIMIT] + docs[FIRESTORE_LIMIT..e];
    ConvertibleAppend(docs[..FIRESTORE_LIMIT], docs[FIRESTORE_LIMIT..e]);
  }
}

=== FILE: blog_view_model.dfy ===
/** `BlogViewModel`: the post list, the page counter, the loading flag and the
    error message, changed by three operations. Each operation's coroutine is
    one atomic step, and what the repository gave it is a parameter. */
module BlogViewModel {
  import opened Wrappers
  import opened KotlinInt
  import opened BlogData
  import BlogRepository

  /** The four pieces of state the ViewModel holds. */
  datatype VmState = VmState(
    posts: seq<Post>,
    currentPage: Int32,
    isLoading: bool,
    errorMessage: Option<string>
  )

  /** What a repository call gives the coroutine: a list, or an exception
      whose `message` may be null. */
  datatype RepoOutcome = Returned(posts: seq<Post>) | Threw(message: Option<string>)

  /** A string template renders a null message as "null". */
  function MessageText(message: Option<string>): (text: string)
    ensures message.Some? ==> text == message.value
    ensures message.None? ==> text == "null"
  {
    message.GetOr("null")
  }

  /** The state the constructor sets up before `init` runs. */
  function Initial(): (s: VmState)
    ensures s.posts == [] && s.currentPage == 1 && !s.isLoading && s.errorMessage.None?
  {
    VmState([], 1, false, None)
  }

  /** `fetchPostsFromCache()`: the cached list replaces the posts; an
      exception is reported and leaves the posts as they were. */
  function FetchPostsFromCache(s: VmState, cached: RepoOutcome): (r: VmState)
    ensures !r.isLoading && r.currentPage == s.currentPage
    ensures cached.Returned? ==> r.posts == cached.posts && r.errorMessage == s.errorMessage
    ensures cached.Threw? ==>
      r.posts == s.posts && r.errorMessage == Some("Failed to fetch cached posts: " + MessageText(cached.message))
  {
    match cached
    case Returned(ps) => s.(posts := ps, isLoading := false)
    case Threw(m) => s.(errorMessage := Some("Failed to fetch cached posts: " + MessageText(m)), isLoading := false)
  }

  /** The ViewModel once its `init` block has run. */
  function Init(cached: RepoOutcome): (r: VmState)
    ensures r.currentPage == 1 && !r.isLoading
    ensures cached.Returned? ==> r.posts == cached.posts && r.errorMessage.None?
    ensures cached.Threw? ==> r.posts == [] && r.errorMessage.Some?
  {
    FetchPostsFromCache(Initial(), cached)
  }

  /** `fetchPostsFromApi(page)` given what `getPostsFromApi(page)` produced:
      the result replaces the posts, with no merge; the page counter is not
      touched. */
  function FetchPostsFromApi(s: VmState, fetched: RepoOutcome): (r: VmState)
    ensures !r.isLoading && r.currentPage == s.currentPage
    ensures fetched.Returned? ==> r.posts == fetched.posts && r.errorMessage == s.errorMessage
    ensures fetched.Threw? ==>
      r.posts == s.posts && r.errorMessage == Some("Failed to fetch posts: " + MessageText(fetched.message))
  {
    match fetched
    case Returned(ps) => s.(posts := ps, isLoading := false)
    case Threw(m) => s.(errorMessage := Some("Failed to fetch posts: " + MessageText(m)), isLoading := false)
  }

  /** The page `loadMorePosts()` asks for: the counter after its `++`. */
  function NextPage(s: VmState): (p: Int32)
    ensures s.currentPage < MAX_INT ==> p == s.currentPage + 1
  {
    Inc(s.currentPage)
  }

  /** `loadMorePosts()` given what `getPostsFromApi(NextPage(s))` produced: the
      counter is incremented whatever the outcome, and fetched posts are
      appended, duplicates included. There is no check of `isLoading`. */
  function LoadMorePosts(s: VmState, fetched: RepoOutcome): (r: VmState)
    ensures !r.isLoading && r.currentPage == NextPage(s)
    ensures fetched.Returned? ==> r.posts == s.posts + fetched.posts && r.errorMessage == s.errorMessage
    ensures fetched.Threw? ==>
      r.posts == s.posts && r.errorMessage == Some("Failed to load more posts: " + MessageText(fetched.message))
  {
    var page := Inc(s.currentPage);
    match fetched
    case Returned(ps) => s.(currentPage := page, posts := s.posts + ps, isLoading := false)
    case Threw(m) =>
      s.(currentPage := page, errorMessage := Some("Failed to load more posts: " + MessageText(m)), isLoading := false)
  }

  /** Appending keeps the old list as a prefix, adds exactly the fetched
      posts after it, and keeps every duplicate id. */
  lemma LoadMoreAppends(s: VmState, fetched: seq<Post>)
    ensures var r := LoadMorePosts(s, Returned(fetched));
      && s.posts <= r.posts
      && |r.posts| == |s.posts| + |fetched|
      && r.posts[|s.posts|..] == fetched
      && forall id :: CountId(r.posts, id) == CountId(s.posts, id) + CountId(fetched, id)
  {
    var r := LoadMorePosts(s, Returned(fetched));
    forall id | true
      ensures CountId(r.posts, id) == CountId(s.posts, id) + CountId(fetched, id)
    {
      CountIdAppend(s.posts, fetched, id);
    }
  }

  /** The operations a caller can trigger. `LoadCache` is the `init` block's call. */
  datatype Command = LoadCache | FetchFromApi(page: Int32) | LoadMore

  /** One operation together with the repository outcome its coroutine saw. */
  datatype Event = Event(command: Command, outcome: RepoOutcome)

  /** The API page a command asks the repository for, if any. */
  function RequestedPage(s: VmState, c: Command): Option<Int32> {
    match c
    case LoadCache => None
    case FetchFromApi(p) => Some(p)
    case LoadMore => Some(NextPage(s))
  }

  function Step(s: VmState, e: Event): VmState {
    match e.command
    case LoadCache => FetchPostsFromCache(s, e.outcome)
    case FetchFromApi(_) => FetchPostsFromApi(s, e.outcome)
    case LoadMore => LoadMorePosts(s, e.outcome)
  }

  /** The state after the events, one after another. */
  function Run(s: VmState, events: seq<Event>): VmState
    decreases |events|
  {
    if |events| == 0 then s else Run(Step(s, events[0]), events[1..])
  }

  /** The pages requested from the API, in order. */
  function RequestedPages(s: VmState, events: seq<Event>): seq<Int32>
    decreases |events|
  {
    if |events| == 0 then []
    else
      var rest := RequestedPages(Step(s, events[0]), events[1..]);
      match RequestedPage(s, events[0].command)
      case Some(p) => [p] + rest
      case None => rest
  }

  function CountLoadMore(events: seq<Event>): (n: nat)
    ensures n <= |events|
    decreases |events|
  {
    if |events| == 0 then 0
    else (if events[0].command == LoadMore then 1 else 0) + CountLoadMore(events[1..])
  }

  /** After any non-empty run, nothing is loading. */
  lemma {:induction false} RunEndsNotLoading(s: VmState, events: seq<Event>)
    requires |events| > 0
    ensures !Run(s, events).isLoading
    decreases |events|
  {
    if |events| > 1 {
      RunEndsNotLoading(Step(s, events[0]), events[1..]);
    }
  }

  /** Only `loadMorePosts()` moves the page counter, by one per call; a
      `fetchPostsFromApi(1)` after several load-mores leaves it where it is. */
  lemma {:induction false} PageCountsLoadMores(s: VmState, events: seq<Event>)
    requires s.currentPage + CountLoadMore(events) <= MAX_INT
    ensures Run(s, events).currentPage == s.currentPage + CountLoadMore(events)
    decreases |events|
  {
    if |events| > 0 {
      PageCountsLoadMores(Step(s, events[0]), events[1..]);
    }
  }

  /** Every event is a `loadMorePosts()`. */
  predicate AllLoadMore(events: seq<Event>) {
    forall i :: 0 <= i < |events| ==> events[i].command == LoadMore
  }

  /** The posts the repository returned across the events, concatenated. */
  function ReturnedPosts(events: seq<Event>): seq<Post>
    decreases |events|
  {
    if |events| == 0 then []
    else
      match events[0].outcome
      case Returned(ps) => ps + ReturnedPosts(events[1..])
      case Threw(_) => ReturnedPosts(events[1..])
  }

  /** N load-mores from page `p` end on page `p + N`, request pages
      `p+1 .. p+N` in that order, and leave the old list followed by
      everything returned, nothing removed. */
  lemma {:induction false} LoadMoreRun(s: VmState, events: seq<Event>)
    requires AllLoadMore(events)
    requires s.currentPage + |events| <= MAX_INT
    ensures Run(s, events).currentPage == s.currentPage + |events|
    ensures |RequestedPages(s, events)| == |events|
    ensures forall i :: 0 <= i < |events| ==> RequestedPages(s, events)[i] == s.currentPage + i + 1
    ensures Run(s, events).posts == s.posts + ReturnedPosts(events)
    decreases |events|
  {
    if |events| > 0 {
      var s' := Step(s, events[0]);
      LoadMoreRun(s', events[1..]);
      var rest := RequestedPages(s', events[1..]);
      assert RequestedPages(s, events) == [s.currentPage + 1] + rest;
      match events[0].outcome
      case Returned(ps) =>
        assert s'.posts + ReturnedPosts(events[1..]) == s.posts + (ps + ReturnedPosts(events[1..]));
      case Threw(_) =>
    } else {
      assert s.posts + [] == s.posts;
    }
  }

  /** An error message, once written, is never reset to null; and if no
      repository call throws, the message is exactly what it was. */
  lemma {:induction false} ErrorMessageSticks(s: VmState, events: seq<Event>)
    ensures s.errorMessage.Some? ==> Run(s, events).errorMessage.Some?
    ensures (forall i :: 0 <= i < |events| ==> events[i].outcome.Returned?) ==>
      Run(s, events).errorMessage == s.errorMessage
    decreases |events|
  {
    if |events| > 0 {
      ErrorMessageSticks(Step(s, events[0]), events[1..]);
    }
  }

  /** With the real repository underneath, which turns every failure into
      `[]`: a failed first-page request empties the list and reports no
      error, whatever was shown before. */
  lemma FailedFirstPageClearsList(s: VmState, cache: BlogRepository.Cache, api: BlogRepository.Api, failingWrite: Option<nat>)
    requires api(BlogRepository.PER_PAGE, 1).ApiError?
    ensures var fetch := BlogRepository.GetPostsFromApi(cache, 1, api, failingWrite);
      var r := FetchPostsFromApi(s, Returned(fetch.posts));
      r.posts == [] && r.errorMessage == s.errorMessage && fetch.cache == cache
  {
  }

  /** Likewise a failed load-more appends nothing and reports no error, yet the page counter has moved on. */
  lemma FailedLoadMoreSkipsPage(s: VmState, cache: BlogRepository.Cache, api: BlogRepository.Api, failingWrite: Option<nat>)
    requires api(BlogRepository.PER_PAGE, NextPage(s)).ApiError?
    requires s.currentPage < MAX_INT
    ensures var fetch := BlogRepository.GetPostsFromApi(cache, NextPage(s), api, failingWrite);
      var r := LoadMorePosts(s, Returned(fetch.posts));
      r.posts == s.posts && r.errorMessage == s.errorMessage && r.currentPage == s.currentPage + 1
  {
    assert s.posts + [] == s.posts;
  }
}

=== FILE: kotlin_int.dfy ===
/** Kotlin's 32-bit `Int` as far as the app relies on it: its range, `++` with
    two's-complement wrap-around, and the decimal `toString()` / `toInt()` pair
    that carries a post id through a navigation route. */
module KotlinInt {
  import opened Wrappers

  const MIN_INT: int := -0x8000_0000
  const MAX_INT: int := 0x7FFF_FFFF
  const TWO_TO_THE_32: int := 0x1_0000_0000

  /** The values of a Kotlin `Int`. */
  type Int32 = x: int | MIN_INT <= x <= MAX_INT

  /** `x++` on an `Int`: the mathematical successor, reduced modulo 2^32 into range. */
  function Inc(x: Int32): (r: Int32)
    ensures (r - (x + 1)) % TWO_TO_THE_32 == 0
    ensures x < MAX_INT ==> r > x
  {
    if x == MAX_INT then MIN_INT else x + 1
  }

  predicate IsDigit(c: char) {
    '0' <= c <= '9'
  }

  predicate AllDigits(s: string) {
    forall i :: 0 <= i < |s| ==> IsDigit(s[i])
  }

  function DigitValue(c: char): (d: nat)
    requires IsDigit(c)
    ensures d < 10
  {
    (c as int) - ('0' as int)
  }

  function DigitChar(d: nat): (c: char)
    requires d < 10
    ensures IsDigit(c) && DigitValue(c) == d
  {
    (('0' as int) + d) as char
  }

  /** Decimal digits of `n`, most significant first, without leading zeros. */
  function NatToDigits(n: nat): (s: string)
    ensures |s| >= 1
    ensures AllDigits(s)
    ensures n > 0 ==> s[0] != '0'
    decreases n
  {
    if n < 10 then [DigitChar(n)] else NatToDigits(n / 10) + [DigitChar(n % 10)]
  }

  /** The number a string of decimal digits denotes (leading zeros allowed). */
  function DigitsValue(s: string): nat
    requires AllDigits(s)
    decreases |s|
  {
    if |s| == 0 then 0 else DigitsValue(s[..|s| - 1]) * 10 + DigitValue(s[|s| - 1])
  }

  lemma {:induction false} DigitsRoundTrip(n: nat)
    ensures DigitsValue(NatToDigits(n)) == n
    decreases n
  {
    if n >= 10 {
      var s := NatToDigits(n);
      assert s[..|s| - 1] == NatToDigits(n / 10);
      DigitsRoundTrip(n / 10);
    }
  }

  /** `Int.toString()`: a minus sign for negative values, then the decimal digits. */
  function ToString(x: int): (s: string)
    ensures |s| >= 1
    ensures x >= 0 ==> AllDigits(s)
    ensures x < 0 ==> s[0] == '-' && AllDigits(s[1..])
  {
    if x < 0 then "-" + NatToDigits(-x) else NatToDigits(x)
  }

  /** `String.toInt()` in radix 10: an optional `+` or `-`, then one or more
      digits whose value fits in an `Int`. `None` stands for the
      `NumberFormatException` it throws otherwise. */
  function ParseInt(s: string): (r: Option<Int32>)
    ensures |s| == 0 ==> r.None?
    ensures r.Some? ==> (|s| > 0 && AllDigits(s)) || (|s| > 1 && (s[0] == '-' || s[0] == '+') && AllDigits(s[1..]))
    ensures |s| > 0 && AllDigits(s) && DigitsValue(s) <= MAX_INT ==> r == Some(DigitsValue(s))
    ensures |s| > 0 && AllDigits(s) && DigitsValue(s) > MAX_INT ==> r.None?
    ensures |s| > 1 && s[0] == '+' && AllDigits(s[1..]) ==>
      r == (if DigitsValue(s[1..]) <= MAX_INT then Some(DigitsValue(s[1..])) else None)
    ensures |s| > 1 && s[0] == '-' && AllDigits(s[1..]) ==>
      r == (if DigitsValue(s[1..]) <= -MIN_INT then Some(0 - DigitsValue(s[1..])) else None)
  {
    if |s| == 0 then None
    else
      var signed := s[0] == '-' || s[0] == '+';
      var digits := if signed then s[1..] else s;
      if |digits| == 0 || !AllDigits(digits) then None
      else
        var v: int := if s[0] == '-' then 0 - DigitsValue(digits) else DigitsValue(digits);
        if MIN_INT <= v <= MAX_INT then Some(v) else None
  }

  /** `toInt()` reads back every value `toString()` writes, `Int.MIN_VALUE` included. */
  lemma ToStringRoundTrip(x: Int32)
    ensures ParseInt(ToString(x)) == Some(x)
  {
    var n: nat := if x < 0 then 0 - x as int else x;
    DigitsRoundTrip(n);
    var s := ToString(x);
    if x < 0 {
      assert s[1..] == NatToDigits(n);
    } else {
      assert IsDigit(s[0]);
    }
  }

  /** Distinct ids give distinct strings, so keying documents by `id.toString()`
      is keying them by `id`. */
  lemma ToStringInjective(a: Int32, b: Int32)
    ensures ToString(a) == ToString(b) ==> a == b
  {
    ToStringRoundTrip(a);
    ToStringRoundTrip(b);
  }
}

=== FILE: navigation.dfy ===
/** `BlogAppNavHost`'s detail destination: the `blogId` argument taken from
    the route `"blogDetail/{blogId}"` and turned into an `Int`. */
module Navigation {
  import opened Wrappers
  import opened KotlinInt
  import BlogListScreen

  /** The `blogId` argument of a route matching `"blogDetail/{blogId}"`:
      everything after the prefix. */
  function BlogIdArgument(route: string): (arg: Option<string>)
    ensures arg.Some? <==> BlogListScreen.DETAIL_ROUTE_PREFIX <= route
    ensures arg.Some? ==> route == BlogListScreen.DETAIL_ROUTE_PREFIX + arg.value
  {
    var prefix := BlogListScreen.DETAIL_ROUTE_PREFIX;
    if prefix <= route then Some(route[|prefix|..]) else None
  }

  /** The id the detail screen receives, or the `NumberFormatException` that
      `toInt()` throws on a malformed argument. */
  datatype BlogIdResult = BlogId(id: Int32) | NumberFormatError

  /** `arguments?.getString("blogId")?.toInt() ?: 0`: a missing argument
      gives 0, a well-formed one its value, a malformed one an exception. */
  function ParseBlogId(arg: Option<string>): (r: BlogIdResult)
    ensures arg.None? ==> r == BlogId(0)
    ensures arg.Some? && |arg.value| == 0 ==> r.NumberFormatError?
    ensures arg.Some? && r.BlogId? ==> ParseInt(arg.value) == Some(r.id)
    ensures arg.Some? ==> (r.BlogId? <==> ParseInt(arg.value).Some?)
  {
    match arg
    case None => BlogId(0)
    case Some(text) =>
      match ParseInt(text)
      case Some(v) => BlogId(v)
      case None => NumberFormatError
  }

  /** The route a card click builds leads the detail screen back to that card's id. */
  lemma RouteRoundTrip(id: Int32)
    ensures ParseBlogId(BlogIdArgument(BlogListScreen.DetailRoute(id))) == BlogId(id)
  {
    var route := BlogListScreen.DetailRoute(id);
    assert BlogIdArgument(route) == Some(ToString(id));
    ToStringRoundTrip(id);
  }

  /** Routes built for different ids are different. */
  lemma DetailRouteInjective(a: Int32, b: Int32)
    ensures BlogListScreen.DetailRoute(a) == BlogListScreen.DetailRoute(b) ==> a == b
  {
    RouteRoundTrip(a);
    RouteRoundTrip(b);
  }
}

=== FILE: plain_text.dfy ===
/** Kotlin's whitespace test, `trim()` and `isBlank()`, and the `toPlainText()`
    extension built on them. The HTML-to-text conversion itself is a parameter. */
module PlainText {
  import opened Wrappers

  /** `Char.isWhitespace()`: Java's `isWhitespace` or `isSpaceChar`, i.e. the
      ASCII controls TAB..CR and FS..US plus every Unicode space, line and
      paragraph separator. */
  predicate IsWhitespace(c: char): (r: bool)
    ensures c == ' ' || c == '\t' || c == '\n' || c == '\r' ==> r
    ensures '!' <= c <= '~' ==> !r
  {
    || c == ' ' || ('\t' <= c <= '\r') || ('\U{1C}' <= c <= '\U{1F}')
    || c == '\U{A0}' || c == '\U{1680}' || ('\U{2000}' <= c <= '\U{200A}')
    || c == '\U{2028}' || c == '\U{2029}' || c == '\U{202F}' || c == '\U{205F}' || c == '\U{3000}'
  }

  /** `isBlank()`: empty or whitespace only, i.e. nothing is left once the
      leading whitespace is dropped. */
  predicate IsBlank(s: string): (r: bool)
    ensures r <==> TrimStart(s) == []
  {
    forall i :: 0 <= i < |s| ==> IsWhitespace(s[i])
  }

  /** Neither end of `s` is whitespace. */
  predicate IsTrimmed(s: string) {
    |s| > 0 ==> !IsWhitespace(s[0]) && !IsWhitespace(s[|s| - 1])
  }

  /** Drops the leading whitespace of `s`. */
  function TrimStart(s: string): (r: string)
    ensures |r| <= |s| && r == s[|s| - |r|..]
    ensures forall k :: 0 <= k < |s| - |r| ==> IsWhitespace(s[k])
    ensures |r| > 0 ==> !IsWhitespace(r[0])
    decreases |s|
  {
    if |s| > 0 && IsWhitespace(s[0]) then TrimStart(s[1..]) else s
  }

  /** Drops the trailing whitespace of `s`. */
  function TrimEnd(s: string): (r: string)
    ensures |r| <= |s| && r == s[..|r|]
    ensures forall k :: |r| <= k < |s| ==> IsWhitespace(s[k])
    ensures |r| > 0 ==> !IsWhitespace(r[|r| - 1])
    decreases |s|
  {
    if |s| > 0 && IsWhitespace(s[|s| - 1]) then TrimEnd(s[..|s| - 1]) else s
  }

  /** `s` is `r` with only whitespace around it. */
  predicate PaddedBy(s: string, r: string) {
    exists i :: 0 <= i <= |s| - |r| && r == s[i..][..|r|] && IsBlank(s[..i]) && IsBlank(s[i + |r|..])
  }

  /** Trimming the start and then the end only removes whitespace. */
  lemma TrimEndsPad(s: string)
    ensures PaddedBy(s, TrimEnd(TrimStart(s)))
  {
    var t := TrimStart(s);
    var r := TrimEnd(t);
    var i := |s| - |t|;
    assert r == s[i..][..|r|];
    var head, tail := s[..i], s[i + |r|..];
    assert IsBlank(head) by {
      forall k | 0 <= k < |head|
        ensures IsWhitespace(head[k])
      {
        assert head[k] == s[k];
      }
    }
    assert IsBlank(tail) by {
      forall k | 0 <= k < |tail|
        ensures IsWhitespace(tail[k])
      {
        assert tail[k] == t[|r| + k];
      }
    }
  }

  /** `trim()`: what is left after removing whitespace from both ends. */
  function Trim(s: string): (r: string)
    ensures IsTrimmed(r)
    ensures PaddedBy(s, r)
    ensures |r| < |s| ==> IsWhitespace(s[0]) || IsWhitespace(s[|s| - 1])
  {
    TrimEndsPad(s);
    TrimEnd(TrimStart(s))
  }

  /** A string already trimmed is left alone, so trimming twice is trimming once. */
  lemma TrimIdempotent(s: string)
    ensures Trim(Trim(s)) == Trim(s)
  {
    var r := Trim(s);
    if |r| > 0 {
      assert TrimStart(r) == r;
      assert TrimEnd(r) == r;
    }
  }

  /** A string is blank exactly when trimming leaves nothing. */
  lemma BlankIffTrimsToEmpty(s: string)
    ensures IsBlank(s) <==> Trim(s) == []
  {
    var t := TrimStart(s);
    if !IsBlank(s) {
      var k :| 0 <= k < |s| && !IsWhitespace(s[k]);
      assert |t| > 0 && !IsWhitespace(t[0]);
      assert TrimEnd(t) != [];
    }
  }

  /** `String?.toPlainText()`: null gives the empty string; otherwise the HTML
      is converted by `fromHtml` and the result trimmed. */
  function ToPlainText(html: Option<string>, fromHtml: string -> string): (r: string)
    ensures IsTrimmed(r)
    ensures html.None? ==> r == ""
    ensures html.Some? ==> |r| <= |fromHtml(html.value)|
    ensures html.Some? && IsTrimmed(fromHtml(html.value)) ==> r == fromHtml(html.value)
    ensures html.Some? ==> PaddedBy(fromHtml(html.value), r)
  {
    match html
    case None => ""
    case Some(h) =>
      var t := fromHtml(h);
      assert IsTrimmed(t) ==> Trim(t) == t by {
        if IsTrimmed(t) { TrimIdentity(t); }
      }
      Trim(t)
  }

  /** A string with no whitespace at either end is its own trim. */
  lemma TrimIdentity(s: string)
    requires IsTrimmed(s)
    ensures Trim(s) == s
  {
    if |s| > 0 {
      assert TrimStart(s) == s;
      assert TrimEnd(s) == s;
    }
  }
}

=== FILE: sequences.dfy ===
/** Searching a sequence, as Kotlin's `find`/`indexOfFirst` do. */
module Sequences {

  /** Index of the first element satisfying `matches`, or `|s|` when none does. */
  function FirstIndexWhere<T>(s: seq<T>, matches: T -> bool): (k: nat)
    ensures k <= |s|
    ensures k < |s| ==> matches(s[k])
    ensures forall j :: 0 <= j < k ==> !matches(s[j])
    decreases |s|
  {
    if |s| == 0 then 0
    else if matches(s[0]) then 0
    else 1 + FirstIndexWhere(s[1..], matches)
  }
}

=== FILE: wrappers.dfy ===
/** The optional value used throughout the model for Kotlin's nullable types (`T?`). */
module Wrappers {

  /** `None` plays the part of Kotlin's `null`. */
  datatype Option<+T> = None | Some(value: T) {

    /** Kotlin's elvis operator `this ?: default`. */
    function GetOr(default: T): T {
      match this
      case Some(v) => v
      case None => default
    }
  }
}
